=== FILE: README.md ===
# gocbcorex core, modelled in Dafny

This project models three parts of the gocbcorex Couchbase client core.

- **The search request front door** (`cbsearchx`).
  - `SearchOptions.toMap` turns typed search options into the JSON request body. It rejects mixed or unknown consistency settings with an `InvalidArgumentError`.
  - `HttpSearch.Search` defaults nil options, insists on an endpoint and builds the body. It then hands the request to the HTTP executor.
  - The search errors: the `InvalidArgumentError` type, its sentinel, and `SearchError`.
- **The agent's topology orchestration** (`agent.go`).
  - `CreateAgent` builds the bootstrap endpoints and the initial connection-pool configuration.
  - On every accepted route config, the config-change callback stores the config. It then pushes three updates, in order, to its collaborators:
    - `updateStateLocked` derives the client map, the routing info and the management endpoints.
    - The updates go to the connection pool (reconfigure), the vbucket router (routing info) and the config poller (endpoints).
- **The KV client's callback-to-blocking bridge** (`kvclient_ops.go`).
  - `kvClient_SimpleCall` allocates a single-slot result channel from a pool and dispatches through the codec. It then waits for either the callback's result or the context.
    - When the context wins and `Cancel()` reports failure, it drains the result that will still arrive.
    - Either way, it returns the channel to the pool.
  - The model also covers the encoder each operation uses, chosen from the negotiated HELLO features, and the select-bucket adapter.

## Modules

| module | file | models |
|---|---|---|
| `Wrappers` | wrappers.dfy | `Option` and `Result`, the Go `nil` / `(value, error)` conventions |
| `Errors` | errors.dfy | Go error values, `Error()`, `Unwrap()` and `errors.Is` |
| `SearchBody` | search_options.dfy | `SearchOptions` and `toMap` |
| `HttpSearch` | search.dfy | `HttpSearch.Search` up to the call of `execute` |
| `Agent` | agent.dfy | `CreateAgent`, `updateStateLocked` and the config-change callback |
| `KvClientOps` | kvclient_ops.dfy | the resulter pool, `kvClient_SimpleCall`, encoder choice and `SelectBucket` |

### How concurrency is modelled

The Go concurrency in `kvClient_SimpleCall` becomes a `Schedule`. A schedule lists one of the event orders that the codec's contract allows:

- `execFn` fails, and the callback never fires.
- The select takes the callback's result.
- The select takes `ctx.Done()`, and then one of three things happens:
  - The callback had already fired.
  - `Cancel()` wins, and the callback never fires.
  - `Cancel()` loses, and the callback fires afterwards.

A channel send is modelled only when the channel has room. A receive is modelled only when the channel holds a result. So every trace the model accepts is one in which nobody blocks forever.

Each call records a trace of the events on its resulter.

The agent's collaborators are modelled as a `Downstream` record. It holds what the pool, the router and the poller were last told.

### Two behaviours of the code worth knowing

When `Cancel()` reports failure, the call blocks on the channel until the callback delivers (kvclient_ops.go:73-75), however long that takes after the context is done. `DeliveredAfterCancel` is the schedule in which the caller waits for that late delivery.

The TODO at agent.go:142-144 notes that the pool is reconfigured before routing is updated. `Agent.ReconfigureBeforeRoutingWindow` states the resulting window: a node that has left is still a routing target but no longer has a pool entry.

### How the search body is specified

The search body is specified key by key. `SearchBody.Expected` is the reference definition. Its order of precedence follows the source's write order: `includeLocations` beats `collections`, which beats `Raw`, which beats the built-in keys.

## Model

| member | source | states |
|---|---|---|
| Errors.Text | cbsearchx/errors.go:14-16 | an InvalidArgumentError's text is an 18-character prefix followed by exactly its message; a dispatch error's text is a 16-character prefix followed by exactly its cause's text (kvclient_ops.go:15-17); the context errors read "context …" |
| Errors.Unwrap | cbsearchx/errors.go:18-20 | only InvalidArgumentError and the dispatch error have an `Unwrap`; an InvalidArgumentError unwraps to the sentinel and a dispatch error to exactly its cause (kvclient_ops.go:19-21); each step goes strictly down the chain |
| Errors.Is | cbsearchx/errors.go:18-20 | `errors.Is(e, target)` holds exactly when `target` is on the unwrap chain of `e`, the chain being listed independently by `Chain` |
| Errors.InvalidArgumentUnwrapsToSentinel | cbsearchx/errors.go:8-20 | every InvalidArgumentError, whatever its message, unwraps to the `ErrInvalidArgument` sentinel, so `errors.Is` matches it |
| Errors.InvalidArgumentTextRoundTrip | cbsearchx/errors.go:14-16 | the text is the sentinel's text, then `": "`, then exactly the caller's message |
| Errors.InvalidArgumentTextInjective | cbsearchx/errors.go:14-16 | two InvalidArgumentErrors with the same text carry the same message |
| Errors.DispatchTextRoundTrip | kvclient_ops.go:15-17 | a dispatch error's text is `"dispatch error: "` followed by exactly the cause's text |
| Errors.OtherAllocationsNeverMatchSentinel | cbsearchx/errors.go:8 | an `errors.New` value from any other allocation never matches the sentinel, even with the same text and under a dispatch error |
| Errors.IsSeesThroughDispatch | kvclient_ops.go:19-21 | under any number of dispatch wrappers, `errors.Is` matches everything the cause matches; for a target that is not itself a dispatch error, it matches nothing more |
| Errors.SearchError.Unwrap | cbsearchx/errors.go:31-34 | a SearchError unwraps to its inner error, whatever its metadata |
| SearchBody.DisplayWrites | cbsearchx/searchoptions.go:64-97 | the writes before validation touch only size, from, explain, fields, sort, highlight and facets |
| SearchBody.DisplayWritesKeywise | cbsearchx/searchoptions.go:64-97 | the paging, explain, fields, sort, highlight and facets writes give each key its built-in value and touch no other key |
| SearchBody.ControlWrites | cbsearchx/searchoptions.go:103-135 | with valid consistency options, `ctl` and `score` get their built-in values and every other key keeps its value |
| SearchBody.BuiltInWrites | cbsearchx/searchoptions.go:62-135 | every write before the Raw extras, key by key, equals the built-in reference table |
| SearchBody.ToMap | cbsearchx/searchoptions.go:61-152 | fails exactly when a consistency level is set together with ConsistentWith, or the level is unknown; the exclusivity message wins; on success, every key holds the reference value, with precedence includeLocations > collections > Raw > built-in |
| SearchBody.PagingKeys | cbsearchx/searchoptions.go:64-70 | `size` and `from` are present exactly when the limit or skip count is positive, and carry it, unless Raw replaces them |
| SearchBody.ConsistencyControl | cbsearchx/searchoptions.go:103-131 | `ctl` is present exactly when a consistency is requested: level `""` for NotBounded, level `at_plus` with the vectors for ConsistentWith |
| SearchBody.ScoringAndLocations | cbsearchx/searchoptions.go:133-149 | `score: "none"` exactly when scoring is disabled; `includeLocations: true` exactly when requested, and nothing overrides a requested one |
| SearchBody.RawPrecedence | cbsearchx/searchoptions.go:137-149 | a Raw extra replaces any built-in key, including `ctl` and `score`, but loses to a non-empty collections list and to a requested includeLocations |
| SearchBody.PresenceVersusEmptiness | cbsearchx/searchoptions.go:76-97 | highlight and facets are written whenever present, even if empty, and facets are copied key for key; fields, sort and collections are written only when non-empty |
| SearchBody.ExclusivityWinsOverUnknownLevel | cbsearchx/searchoptions.go:99-112 | the exclusivity check comes before the unknown-level check |
| SearchBody.ZeroOptionsGiveEmptyBody | cbsearchx/searchoptions.go:61-152 | zero-valued options give an empty body and no error |
| SearchBody.IndexNameIrrelevant | cbsearchx/searchoptions.go:61 | the index name never affects the body or the error |
| HttpSearch.Search | cbsearchx/search.go:19-40 | succeeds exactly when the (defaulted) options have an endpoint and `toMap` accepts them; an empty endpoint gives the endpoint error; a `toMap` error is passed on unchanged; on success, `execute` receives the query, the endpoint, the on-behalf-of user and the body |
| HttpSearch.NilOptionsAreZeroOptions | cbsearchx/search.go:20-22 | nil options behave exactly like zero-valued options |
| HttpSearch.NilOptionsAlwaysRejected | cbsearchx/search.go:20-26 | with nil options, the call always fails with the endpoint error |
| HttpSearch.EndpointCheckedFirst | cbsearchx/search.go:24-31 | an empty endpoint is reported even for options `toMap` would reject, and the `toMap` error is not |
| HttpSearch.RejectionsAreInvalidArgument | cbsearchx/search.go:24-31 | every rejection is an InvalidArgumentError, and `errors.Is` matches it to the sentinel |
| Agent.BootstrapEndpoints | agent.go:37-46 | one endpoint per host:port, in order, each the host:port behind `https://` with TLS and `http://` without |
| Agent.BootstrapEndpointsRoundTrip | agent.go:37-46 | stripping the scheme gives back the host:port list exactly |
| Agent.BuildClients | agent.go:146-155 | the client map has one entry per distinct address, keyed by that address, with the agent's TLS setting, bucket and credentials |
| Agent.BuildClientsDependsOnlyOnAddressSet | agent.go:69-78 | duplicate or reordered addresses give the same client map |
| Agent.CreateAgent | agent.go:36-82 | stores the static parameters with no config yet; the poller gets the bootstrap endpoints; the pool gets one connection per node over the memcached addresses |
| Agent.ServerList | agent.go:130-140 | the KV node list is the route config's TLS list when a TLS configuration is present and its plaintext list otherwise |
| Agent.MgmtList | agent.go:130-140 | the management list is chosen by the same TLS setting |
| Agent.UpdateStateLocked | agent.go:124-167 | issues exactly three calls, in order: pool reconfigure, routing update, poller endpoints; the node list depends on TLS; pool keys and routing servers are the same set; routing carries the vbucket map |
| Agent.OnConfigChange | agent.go:101-106 | stores the incoming config as the latest one; issues reconfigure, routing update and poller update in that order, with routing carrying the incoming config's vbucket map and KV node list, the poller its management list, and the pool exactly one entry per KV node |
| Agent.OnConfigChangeIgnoresPreviousConfig | agent.go:101-106 | the effects of a config change do not depend on the config stored before it |
| Agent.ConfigChangeSettlesConsistently | agent.go:146-166 | once all three calls are applied, whatever the collaborators held before, routing and pool agree on the new node list, and the poller holds the new management list |
| Agent.FirstConfigChangeFromCreation | agent.go:99-106 | starting from the state `CreateAgent` sets up before the watcher delivers the first config (no routing info yet), once that first config change is applied, routing and pool agree on the config's KV node list and the poller holds its management list |
| Agent.ReconfigureBeforeRoutingWindow | agent.go:142-159 | between the reconfigure and the routing update, a node that left is still a routing target but has no pool entry |
| KvClientOps.Alloc | kvclient_ops.go:34-42 | from an empty pool, a fresh resulter with a capacity-one channel; otherwise a pooled one, and the pool keeps exactly the other idle resulters (as a multiset); from a well-formed pool, the resulter is idle, no longer in the pool, and the pool stays well formed |
| KvClientOps.Release | kvclient_ops.go:43-45 | the resulter is back in the pool; an idle resulter this pool issued, and not already in the pool, keeps it well formed |
| KvClientOps.AllocReleaseRoundTrip | kvclient_ops.go:34-45 | taking a pooled resulter and putting it straight back restores the pool's contents (as a multiset) and its next identity; with the most-recently-released order the model uses, it restores the pool exactly |
| KvClientOps.DispatchAndWait | kvclient_ops.go:56-79 | the resulter ends idle, as it started; the callback fires at most once and its result is always received; after a cancelled wait, a result is drained exactly when `Cancel()` fails; the answer per schedule is the zero response plus the dispatch error, the delivered result, or the zero response plus the context error |
| KvClientOps.SimpleCall | kvclient_ops.go:47-80 | each call allocates and releases its resulter exactly once and returns it with an empty channel; the pool stays well formed and holds the resulter again; the callback fires at most once and its result is received; the answer per schedule is as for DispatchAndWait |
| KvClientOps.RunCalls | kvclient_ops.go:47-80 | over any sequence of calls on one pool, with any mix of cancellations, each call answers exactly what its own schedule delivers, never a stale result of an earlier call, and every resulter goes back empty |
| KvClientOps.EncoderFor | kvclient_ops.go:82-153 | CRUD operations use the CRUD encoder; GetCollectionID uses the utils encoder; bootstrap wraps the core encoder; the rest use the core encoder; extended frames follow AltRequests, and collections follow the Collections feature |
| KvClientOps.EncoderIgnoresOtherFeatures | kvclient_ops.go:97-111 | only the AltRequests and Collections features affect the encoder |
| KvClientOps.SelectBucketWrapper | kvclient_ops.go:124-128 | the select-bucket callback's error is forwarded unchanged, with a nil payload |
| KvClientOps.SelectBucketCall | kvclient_ops.go:130-133 | `SelectBucket` reports the dispatch error, the callback's error or the context error according to the schedule, and leaves the pool well formed |

## Left out

- `HttpSearch.execute` and the HTTP client: `Search` returns the request that `execute` would receive. The `execute` body as written does not compile (it uses an undefined `indexName` and has no final return), so it has no defined behaviour to model.
- HttpSearch.Search: the `json.Marshal(body)` failure exit (cbsearchx/search.go:33-36) is not modelled. Marshalling fails when a Raw, sort or facet value cannot be encoded (a NaN, a channel, a func). `Value` cannot hold such values, so "succeeds exactly when" holds only for encodable bodies.
- HttpSearch.RejectionsAreInvalidArgument: for the same reason, a `json.Marshal` error, which is not an InvalidArgumentError, is not among the rejections it covers.
- `SearchError` has no `Error()` method in the source, so the model gives it only `Unwrap`. The only producer of a `SearchError` is `execute`, which is left out above.
- `errors.New` values compare by pointer identity in Go. The model gives each `Errors.New` value an allocation identity next to its text, with identity 0 reserved for the `ErrInvalidArgument` sentinel. Causes from the codec, the HTTP client and other unmodelled code are `Errors.New` values with their own identities, so `Errors.Is` matches them to the sentinel only if they are the sentinel itself.
- SearchBody.ToMap: consistency vectors (`uint64` in Go) are unbounded naturals. Sort and facet payloads are opaque `Value`s, because their JSON forms belong to types that are not part of this model.
- The JSON encoding of a nil versus an empty highlight fields list (`null` versus `[]`) is not distinguished. Fields, sort and collections are written only when non-empty, so for them the distinction never shows.
- SearchBody.ToMap: inside `ConsistentWith`, a nil inner map or nil sequence-number slice encodes as JSON `null` in Go. The model's empty map or sequence stands for `{}` or `[]`, so the two are not told apart.
- `startConfigWatcher`, the config poller, the route config manager and its deduplication are left out. They involve goroutines, channels, timers and network I/O. The model starts from the moment the callback receives a config.
- `log.Printf` in `updateStateLocked` is left out. It is output only.
- Agent.CreateAgent: the error returns from `NewKvClientManager`, `NewCollectionResolverCached` and `startConfigWatcher` are not modelled, because those collaborators are outside this model. The model covers the successful path up to starting the watcher.
- The collection resolver, retry manager and CRUD component that `CreateAgent` wires up are left out. They are constructed by code outside this model.
- The TLS configuration is reduced to whether one is present. That is the only thing the modelled code tests.
- Agent.UpdateStateLocked requires a stored config. The source dereferences it unconditionally, and the callback always stores one first.
- The agent mutex is not modelled. `OnConfigChange` is one atomic step, which is what holding the lock gives.
- The CRUD delegation in `agent_ops.go` is left out. It only forwards to the CRUD component, which is outside this model.
- KvClientOps.Alloc: `sync.Pool` may drop idle items at any time. The model's pool never drops them, and always hands out the most recently released item. Apart from the exact-equality clause of `KvClientOps.AllocReleaseRoundTrip`, which relies on that most-recently-released order, the properties proved do not depend on which idle item is handed out.
- KvClientOps.SimpleCall and KvClientOps.DispatchAndWait: the codec's contract is assumed rather than proved, and `Schedule` enumerates only the orders it allows. The assumptions are:
  - the callback fires at most once, and never after a dispatch error;
  - when `Cancel()` reports false, the callback has fired or will fire; otherwise the drain at kvclient_ops.go:74 would block forever, past the deadline;
  - `Cancel()` reports true only if the callback has not fired and never will; otherwise the result would stay in the channel, and the resulter would go back to the pool holding a stale result.

  A codec that broke any of these is not modelled.
- KvClientOps.SimpleCall: the type assertion `res.Result.(RespT)` (kvclient_ops.go:71) is absorbed by the generic response type. It cannot fail for the response types used in kvclient_ops.go, which are pointer and slice types. For an interface `RespT`, a nil response would make the assertion panic, and that panic is not modelled.
- `kvClient_SimpleCoreCall`, `kvClient_SimpleUtilsCall`, `kvClient_SimpleCrudCall` and the per-operation methods: the encoder choice is modelled on its own by `EncoderFor`. It does not affect the modelled call, because the encoder reaches only `execFn`, which `Schedule` replaces. Request and response payloads are opaque.

=== FILE: agent.dfy ===
/** The agent's topology orchestration: the bootstrap addresses and initial
    connection-pool configuration built at creation, and the state it derives
    from each accepted route config and pushes, in order, to the connection
    pool, the vbucket router and the config poller. The pool, router and poller
    are not modelled beyond the calls they receive. */
module Agent {
  import opened Wrappers

  /** A node list in its plaintext and TLS variants. */
  datatype EndpointList = EndpointList(nonSslEndpoints: seq<string>, sslEndpoints: seq<string>)

  /** Shard table: per vbucket, the server-list indices of its active and replica nodes. */
  datatype VbucketMap = VbucketMap(entries: seq<seq<int>>)

  /** An accepted topology snapshot. */
  datatype RouteConfig = RouteConfig(
    revId: int,
    kvServerList: EndpointList,
    mgmtEpList: EndpointList,
    vbMap: VbucketMap)

  /** Creation options. The TLS configuration is reduced to whether one is present. */
  datatype AgentOptions = AgentOptions(
    tlsEnabled: bool,
    bucketName: string,
    username: string,
    password: string,
    httpAddrs: seq<string>,
    memdAddrs: seq<string>)

  /** The lock-protected part of the agent. */
  datatype AgentConfig = AgentConfig(
    bucket: string,
    tlsEnabled: bool,
    username: string,
    password: string,
    latestConfig: Option<RouteConfig>)

  /** The per-node connection settings handed to the connection pool. */
  datatype KvClientConfig = KvClientConfig(
    address: string,
    tlsEnabled: bool,
    selectedBucket: string,
    username: string,
    password: string)

  datatype KvClientManagerConfig = KvClientManagerConfig(
    numPoolConnections: nat,
    clients: map<string, KvClientConfig>)

  datatype VbucketRoutingInfo = VbucketRoutingInfo(vbmap: VbucketMap, serverList: seq<string>)

  /** The three calls a state update makes on its collaborators. */
  datatype Effect =
    | Reconfigure(managerConfig: KvClientManagerConfig)   // connection pool
    | UpdateRoutingInfo(info: VbucketRoutingInfo)          // vbucket router
    | UpdateEndpoints(endpoints: seq<string>)              // config poller

  /** What `CreateAgent` sets up before it starts watching for configs. */
  datatype CreatedAgent = CreatedAgent(
    config: AgentConfig,
    pollerEndpoints: seq<string>,
    initialPool: KvClientManagerConfig)

  const HttpScheme: string := "http://"
  const HttpsScheme: string := "https://"

  function SchemeFor(tlsEnabled: bool): string
  {
    if tlsEnabled then HttpsScheme else HttpScheme
  }

  /** The bootstrap loop of `CreateAgent`: each host:port, in order, behind the
      scheme the TLS setting selects. */
  function BootstrapEndpoints(hostPorts: seq<string>, tlsEnabled: bool): (eps: seq<string>)
    ensures |eps| == |hostPorts|
    ensures forall i :: 0 <= i < |hostPorts| ==> eps[i] == SchemeFor(tlsEnabled) + hostPorts[i]
  {
    if |hostPorts| == 0 then []
    else BootstrapEndpoints(hostPorts[..|hostPorts| - 1], tlsEnabled)
         + [SchemeFor(tlsEnabled) + hostPorts[|hostPorts| - 1]]
  }

  /** Drops a known scheme prefix from every endpoint. */
  function StripScheme(eps: seq<string>, scheme: string): seq<string>
    requires forall i :: 0 <= i < |eps| ==> scheme <= eps[i]
  {
    seq(|eps|, i requires 0 <= i < |eps| => eps[i][|scheme|..])
  }

  /** The scheme prefix is the only change: stripping it gives back the
      host:port list exactly. */
  lemma BootstrapEndpointsRoundTrip(hostPorts: seq<string>, tlsEnabled: bool)
    ensures var eps := BootstrapEndpoints(hostPorts, tlsEnabled);
            forall i :: 0 <= i < |eps| ==> SchemeFor(tlsEnabled) <= eps[i]
    ensures StripScheme(BootstrapEndpoints(hostPorts, tlsEnabled), SchemeFor(tlsEnabled)) == hostPorts
  {
    var eps := BootstrapEndpoints(hostPorts, tlsEnabled);
    var scheme := SchemeFor(tlsEnabled);
    forall i | 0 <= i < |eps| ensures eps[i][|scheme|..] == hostPorts[i] {
      assert eps[i] == scheme + hostPorts[i];
    }
  }

  /** The connection settings for one node under the agent's static parameters. */
  function ClientConfigFor(config: AgentConfig, addr: string): KvClientConfig
  {
    KvClientConfig(addr, config.tlsEnabled, config.bucket, config.username, config.password)
  }

  /** The client-map loop shared by `CreateAgent` and `updateStateLocked`: one
      entry per distinct address, keyed by that address. */
  function BuildClients(config: AgentConfig, addrs: seq<string>): (clients: map<string, KvClientConfig>)
    ensures forall a :: a in clients <==> a in addrs
    ensures forall a :: a in clients ==> clients[a] == ClientConfigFor(config, a)
  {
    if |addrs| == 0 then map[]
    else
      var last := addrs[|addrs| - 1];
      BuildClients(config, addrs[..|addrs| - 1])[last := ClientConfigFor(config, last)]
  }

  /** Listing an address twice, or in another order, gives the same client map. */
  lemma BuildClientsDependsOnlyOnAddressSet(config: AgentConfig, a: seq<string>, b: seq<string>)
    requires forall x :: x in a <==> x in b
    ensures BuildClients(config, a) == BuildClients(config, b)
  {
  }

  /** `CreateAgent` up to starting the config watcher: static parameters stored,
      no config yet, bootstrap endpoints for the poller, and a one-connection pool
      over the memcached addresses. */
  function CreateAgent(opts: AgentOptions): (agent: CreatedAgent)
    ensures agent.config.latestConfig.None?
    ensures agent.config == AgentConfig(opts.bucketName, opts.tlsEnabled, opts.username, opts.password, None)
    ensures |agent.pollerEndpoints| == |opts.httpAddrs|
    ensures forall i :: 0 <= i < |opts.httpAddrs| ==>
              agent.pollerEndpoints[i] == SchemeFor(opts.tlsEnabled) + opts.httpAddrs[i]
    ensures agent.initialPool.numPoolConnections == 1
    ensures forall a :: a in agent.initialPool.clients <==> a in opts.memdAddrs
    ensures forall a :: a in agent.initialPool.clients ==>
              agent.initialPool.clients[a] == KvClientConfig(a, opts.tlsEnabled, opts.bucketName, opts.username, opts.password)
  {
    var config := AgentConfig(opts.bucketName, opts.tlsEnabled, opts.username, opts.password, None);
    CreatedAgent(
      config,
      BootstrapEndpoints(opts.httpAddrs, opts.tlsEnabled),
      KvClientManagerConfig(1, BuildClients(config, opts.memdAddrs)))
  }

  /** The KV node list the agent uses from a route config: the TLS variant when a
      TLS configuration is present, the plaintext variant otherwise. */
  function ServerList(config: AgentConfig, rc: RouteConfig): (servers: seq<string>)
    ensures config.tlsEnabled ==> servers == rc.kvServerList.sslEndpoints
    ensures !config.tlsEnabled ==> servers == rc.kvServerList.nonSslEndpoints
  {
    if config.tlsEnabled then rc.kvServerList.sslEndpoints else rc.kvServerList.nonSslEndpoints
  }

  /** The management node list the agent uses from a route config, chosen by the
      same TLS setting as the KV node list. */
  function MgmtList(config: AgentConfig, rc: RouteConfig): (mgmt: seq<string>)
    ensures config.tlsEnabled ==> mgmt == rc.mgmtEpList.sslEndpoints
    ensures !config.tlsEnabled ==> mgmt == rc.mgmtEpList.nonSslEndpoints
  {
    if config.tlsEnabled then rc.mgmtEpList.sslEndpoints else rc.mgmtEpList.nonSslEndpoints
  }

  /** `updateStateLocked`: the effects derived from the latest config, in the
      order they are issued. The source dereferences the latest config, so one
      must be stored. */
  function UpdateStateLocked(config: AgentConfig): (effects: seq<Effect>)
    requires config.latestConfig.Some?
    ensures |effects| == 3
    ensures effects[0].Reconfigure? && effects[1].UpdateRoutingInfo? && effects[2].UpdateEndpoints?
    ensures var rc := config.latestConfig.value;
            effects[1].info == VbucketRoutingInfo(rc.vbMap, ServerList(config, rc))
    ensures effects[2].endpoints == MgmtList(config, config.latestConfig.value)
    ensures effects[0].managerConfig.numPoolConnections == 1
    ensures forall a :: a in effects[0].managerConfig.clients <==> a in effects[1].info.serverList
    ensures forall a :: a in effects[0].managerConfig.clients ==>
              effects[0].managerConfig.clients[a] ==
              KvClientConfig(a, config.tlsEnabled, config.bucket, config.username, config.password)
  {
    var rc := config.latestConfig.value;
    var serverList := ServerList(config, rc);
    var mgmtList := MgmtList(config, rc);
    [ Reconfigure(KvClientManagerConfig(1, BuildClients(config, serverList))),
      UpdateRoutingInfo(VbucketRoutingInfo(rc.vbMap, serverList)),
      UpdateEndpoints(mgmtList) ]
  }

  /** The config-change callback: store the incoming config as the latest one,
      then derive the effects from the stored state. The effects are those of the
      incoming config alone: routing gets its vbucket map and KV node list, the
      poller its management list, and the pool one entry per KV node. */
  function OnConfigChange(config: AgentConfig, rc: RouteConfig): (result: (AgentConfig, seq<Effect>))
    ensures result.0 == config.(latestConfig := Some(rc))
    ensures |result.1| == 3
    ensures result.1[0].Reconfigure? && result.1[1].UpdateRoutingInfo? && result.1[2].UpdateEndpoints?
    ensures result.1[1].info == VbucketRoutingInfo(rc.vbMap, ServerList(config, rc))
    ensures result.1[2].endpoints == MgmtList(config, rc)
    ensures forall a :: a in result.1[0].managerConfig.clients <==> a in ServerList(config, rc)
  {
    var config' := config.(latestConfig := Some(rc));
    (config', UpdateStateLocked(config'))
  }

  /** The collaborators' view of the agent: what the pool, router and poller were
      last told. */
  datatype Downstream = Downstream(
    pool: KvClientManagerConfig,
    routing: Option<VbucketRoutingInfo>,
    pollerEndpoints: seq<string>)

  function ApplyEffect(d: Downstream, e: Effect): Downstream
  {
    match e
    case Reconfigure(m) => d.(pool := m)
    case UpdateRoutingInfo(info) => d.(routing := Some(info))
    case UpdateEndpoints(eps) => d.(pollerEndpoints := eps)
  }

  function ApplyEffects(d: Downstream, effects: seq<Effect>): Downstream
    decreases |effects|
  {
    if |effects| == 0 then d else ApplyEffects(ApplyEffect(d, effects[0]), effects[1..])
  }

  /** Whatever config was stored before, a config change issues the same effects. */
  lemma OnConfigChangeIgnoresPreviousConfig(config: AgentConfig, rc: RouteConfig, previous: Option<RouteConfig>)
    ensures OnConfigChange(config.(latestConfig := previous), rc).1 == OnConfigChange(config, rc).1
  {
  }

  /** Routing and the pool agree: every node routing can pick has a pool entry,
      and every pool entry is a node routing knows. */
  ghost predicate RoutingMatchesPool(d: Downstream)
  {
    d.routing.Some? && forall a :: a in d.pool.clients <==> a in d.routing.value.serverList
  }

  /** Once a config change has been fully applied, whatever the collaborators held
      before, routing and pool agree on the new node list, the router holds the new
      vbucket map, and the poller holds the new management list. */
  lemma ConfigChangeSettlesConsistently(config: AgentConfig, rc: RouteConfig, d: Downstream)
    ensures var (config', effects) := OnConfigChange(config, rc);
            var d' := ApplyEffects(d, effects);
            RoutingMatchesPool(d') &&
            d'.routing.value == VbucketRoutingInfo(rc.vbMap, ServerList(config, rc)) &&
            d'.pollerEndpoints == MgmtList(config, rc) &&
            d'.pool.numPoolConnections == 1
  {
    var (config', effects) := OnConfigChange(config, rc);
    var d1 := ApplyEffect(d, effects[0]);
    var d2 := ApplyEffect(d1, effects[1]);
    var d3 := ApplyEffect(d2, effects[2]);
    assert ApplyEffects(d2, effects[2..]) == d3 by {
      assert effects[2..][1..] == [];
    }
    assert ApplyEffects(d1, effects[1..]) == ApplyEffects(d2, effects[2..]) by {
      assert effects[1..][1..] == effects[2..];
    }
  }

  /** The ordering hazard noted in the source: between the pool reconfigure and
      the routing update, a node that left the cluster is still a routing target
      but no longer has a pool entry, so dispatch to it fails until routing
      catches up. */
  lemma ReconfigureBeforeRoutingWindow(config: AgentConfig, rc: RouteConfig, d: Downstream, gone: string)
    requires d.routing.Some? && gone in d.routing.value.serverList
    requires gone !in ServerList(config, rc)
    ensures var (config', effects) := OnConfigChange(config, rc);
            var mid := ApplyEffect(d, effects[0]);
            mid.routing == d.routing && gone in mid.routing.value.serverList && gone !in mid.pool.clients
  {
  }

  /** From the state `CreateAgent` sets up before the watcher delivers the first
      config, where the router has no routing info yet. Once that first config
      change is applied, routing and pool agree on the config's KV node list, and
      the poller has moved from the bootstrap endpoints to the config's
      management list. */
  lemma FirstConfigChangeFromCreation(opts: AgentOptions, rc: RouteConfig)
    ensures var agent := CreateAgent(opts);
            var d0 := Downstream(agent.initialPool, None, agent.pollerEndpoints);
            var d := ApplyEffects(d0, OnConfigChange(agent.config, rc).1);
            RoutingMatchesPool(d) && d.routing.value.serverList == ServerList(agent.config, rc) &&
            d.pollerEndpoints == MgmtList(agent.config, rc)
  {
    var agent := CreateAgent(opts);
    ConfigChangeSettlesConsistently(agent.config, rc, Downstream(agent.initialPool, None, agent.pollerEndpoints));
  }
}

=== FILE: errors.dfy ===
/** Go `error` values produced or passed along by the modelled code: the search
    package's InvalidArgumentError and its sentinel, the KV client's dispatch
    error, the two context errors, and opaque causes coming from code that is not
    modelled. `Text` is `Error()`, `Unwrap` is the `Unwrap()` method, and `Is`
    follows the unwrap chain the way `errors.Is` does. */
module Errors {
  import opened Wrappers

  datatype Error =
    | New(id: nat, text: string)        // one errors.New allocation, or a cause from unmodelled code
    | InvalidArgument(message: string)  // cbsearchx.InvalidArgumentError
    | Dispatch(cause: Error)            // KvClientDispatchError
    | Canceled                          // context.Canceled
    | DeadlineExceeded                  // context.DeadlineExceeded

  /** The package-level sentinel every InvalidArgumentError unwraps to. */
  const SentinelId: nat := 0
  const ErrInvalidArgument: Error := New(SentinelId, "invalid argument")

  /** `Error()`: the human-readable message. A wrapping error's message is a fixed
      prefix followed by the wrapped message, so it is always longer. */
  function Text(e: Error): (t: string)
    ensures e.InvalidArgument? ==> |t| == 18 + |e.message| && t[18..] == e.message
    ensures e.Dispatch? ==> |t| == 16 + |Text(e.cause)| && t[16..] == Text(e.cause)
    ensures e.Canceled? || e.DeadlineExceeded? ==> "context " <= t
  {
    match e
    case New(_, t) => t
    case InvalidArgument(m) => "invalid argument: " + m
    case Dispatch(c) => "dispatch error: " + Text(c)
    case Canceled => "context canceled"
    case DeadlineExceeded => "context deadline exceeded"
  }

  /** Length of the unwrap chain below an error. */
  function Depth(e: Error): nat
  {
    match e
    case InvalidArgument(_) => 1
    case Dispatch(c) => Depth(c) + 1
    case _ => 0
  }

  /** `Unwrap()`: the next error in the chain, or None where Go has no Unwrap method. */
  function Unwrap(e: Error): (r: Option<Error>)
    ensures r.Some? <==> e.InvalidArgument? || e.Dispatch?
    ensures e.InvalidArgument? ==> r == Some(ErrInvalidArgument)
    ensures e.Dispatch? ==> r == Some(e.cause)
    ensures r.Some? ==> Depth(r.value) < Depth(e)
  {
    match e
    case InvalidArgument(_) => Some(ErrInvalidArgument)
    case Dispatch(c) => Some(c)
    case _ => None
  }

  /** The unwrap chain of `e`: `e` itself, then each error `Unwrap` leads to. */
  function Chain(e: Error): (c: seq<Error>)
    decreases Depth(e)
  {
    [e] + (if Unwrap(e).Some? then Chain(Unwrap(e).value) else [])
  }

  /** `errors.Is(e, target)`: walks the unwrap chain of `e` looking for `target`. */
  predicate Is(e: Error, target: Error): (b: bool)
    ensures b <==> target in Chain(e)
    decreases Depth(e)
  {
    e == target || (Unwrap(e).Some? && Is(Unwrap(e).value, target))
  }

  /** The unwrap target of an InvalidArgumentError never depends on its message. */
  lemma InvalidArgumentUnwrapsToSentinel(m: string)
    ensures Unwrap(InvalidArgument(m)) == Some(ErrInvalidArgument)
    ensures Is(InvalidArgument(m), ErrInvalidArgument)
  {
  }

  /** The sentinel's text followed by ": " prefixes every InvalidArgumentError
      message, and the caller's message is exactly what follows it. */
  lemma InvalidArgumentTextRoundTrip(m: string)
    ensures Text(ErrInvalidArgument) <= Text(InvalidArgument(m))
    ensures Text(InvalidArgument(m))[|Text(ErrInvalidArgument)|..|Text(ErrInvalidArgument)| + 2] == ": "
    ensures Text(InvalidArgument(m))[|Text(ErrInvalidArgument)| + 2..] == m
  {
  }

  /** Distinct messages give distinct texts, so the text determines the message. */
  lemma InvalidArgumentTextInjective(m1: string, m2: string)
    ensures Text(InvalidArgument(m1)) == Text(InvalidArgument(m2)) ==> m1 == m2
  {
    if Text(InvalidArgument(m1)) == Text(InvalidArgument(m2)) {
      InvalidArgumentTextRoundTrip(m1);
      InvalidArgumentTextRoundTrip(m2);
    }
  }

  /** A dispatch error's text is the cause's text behind a fixed prefix. */
  lemma DispatchTextRoundTrip(c: Error)
    ensures Text(Dispatch(c))[..16] == "dispatch error: "
    ensures Text(Dispatch(c))[16..] == Text(c)
  {
  }

  /** `n` nested dispatch-error wrappers around `c`. */
  function WrapDispatch(n: nat, c: Error): Error
  {
    if n == 0 then c else Dispatch(WrapDispatch(n - 1, c))
  }

  /** However deeply a cause is wrapped in dispatch errors, `errors.Is` still finds
      everything the cause itself matches, and a dispatch wrapper matches nothing
      more than its cause unless it is itself the target. */
  lemma {:induction false} IsSeesThroughDispatch(n: nat, c: Error, target: Error)
    ensures Is(c, target) ==> Is(WrapDispatch(n, c), target)
    ensures Is(WrapDispatch(n, c), target) && !target.Dispatch? ==> Is(c, target)
    decreases n
  {
    if n > 0 {
      IsSeesThroughDispatch(n - 1, c, target);
    }
  }

  /** A search request failure: carries the underlying cause plus request metadata. */
  datatype SearchError = SearchError(
    innerError: Error,
    query: string,
    endpoint: string,
    errorText: string,
    indexName: string,
    httpStatusCode: int)
  {
    /** `Unwrap()` hands back the cause as-is, whatever the metadata. */
    function Unwrap(): (r: Error)
      ensures r == innerError
    {
      innerError
    }
  }

  /** `errors.New` values match by allocation, not by text: a cause from another
      allocation never matches the sentinel, even when its text is the sentinel's
      and it sits under a dispatch error. */
  lemma OtherAllocationsNeverMatchSentinel(id: nat, t: string)
    requires id != SentinelId
    ensures !Is(New(id, t), ErrInvalidArgument)
    ensures !Is(Dispatch(New(id, t)), ErrInvalidArgument)
  {
  }
}

=== FILE: kvclient_ops.dfy ===
/** The KV client's callback-to-blocking bridge (`kvClient_SimpleCall`), the
    pool of single-slot result channels it draws from, the encoder each
    operation dispatches with, and the select-bucket adapter.

    Go's concurrency is replaced by an enumeration of the event orders the codec
    allows: its completion callback fires at most once, never after a dispatch
    error, and never after a `Cancel()` that reported success. A channel send is
    only modelled when the buffer has room and a receive only when it holds a
    result, so every order the model accepts is one in which no goroutine blocks
    forever. */
module KvClientOps {
  import opened Wrappers
  import opened Errors

  /** One callback delivery: a response and an error. */
  datatype CrudResult<R> = CrudResult(result: R, err: Option<Error>)

  /** A pooled resulter: its identity, its channel's capacity and the results
      buffered in that channel. */
  datatype Resulter<R> = Resulter(id: nat, capacity: nat, buffer: seq<CrudResult<R>>)

  /** The resulter pool: the idle resulters it holds, and the identity the next
      freshly made resulter receives. */
  datatype ResulterPool<R> = ResulterPool(free: seq<Resulter<R>>, nextId: nat)

  /** A resulter fit for reuse: capacity one and nothing buffered. */
  predicate Idle<R>(r: Resulter<R>)
  {
    r.capacity == 1 && r.buffer == []
  }

  /** A one-call trace: the resulter is allocated first and released last with
      nothing buffered, and is allocated and released exactly once. */
  predicate SingleUse(t: seq<CallEvent>)
  {
    && |t| >= 2
    && t[0].Allocated?
    && t[|t| - 1] == Released(t[0].id, 0)
    && TallyOf(t).allocs == 1
    && TallyOf(t).releases == 1
  }

  /** Every pooled resulter is idle, was issued by this pool, and appears once. */
  predicate PoolWellFormed<R>(p: ResulterPool<R>)
  {
    && (forall i :: 0 <= i < |p.free| ==> Idle(p.free[i]) && p.free[i].id < p.nextId)
    && (forall i, j :: 0 <= i < j < |p.free| ==> p.free[i].id != p.free[j].id)
  }

  predicate InPool<R>(p: ResulterPool<R>, id: nat)
  {
    exists i :: 0 <= i < |p.free| && p.free[i].id == id
  }

  /** `allocSyncCrudResulter`: reuse a pooled resulter if there is one, otherwise
      make a fresh one whose channel has capacity one. */
  function Alloc<R>(p: ResulterPool<R>): (res: (Resulter<R>, ResulterPool<R>))
    ensures |p.free| == 0 ==> res.0 == Resulter(p.nextId, 1, []) && res.1 == ResulterPool([], p.nextId + 1)
    ensures |p.free| > 0 ==> res.0 in p.free && |res.1.free| == |p.free| - 1 && res.1.nextId == p.nextId
    ensures |p.free| > 0 ==> multiset(res.1.free) + multiset{res.0} == multiset(p.free)
    ensures PoolWellFormed(p) ==>
              Idle(res.0) && PoolWellFormed(res.1) && res.0.id < res.1.nextId && !InPool(res.1, res.0.id)
  {
    if |p.free| == 0 then
      (Resulter(p.nextId, 1, []), ResulterPool([], p.nextId + 1))
    else
      assert p.free == p.free[..|p.free| - 1] + [p.free[|p.free| - 1]];
      (p.free[|p.free| - 1], ResulterPool(p.free[..|p.free| - 1], p.nextId))
  }

  /** `releaseSyncCrudResulter`: hand a resulter back to the pool. */
  function Release<R>(p: ResulterPool<R>, r: Resulter<R>): (p': ResulterPool<R>)
    ensures InPool(p', r.id) && |p'.free| == |p.free| + 1
    ensures PoolWellFormed(p) && Idle(r) && r.id < p.nextId && !InPool(p, r.id) ==> PoolWellFormed(p')
  {
    var p' := ResulterPool(p.free + [r], p.nextId);
    assert p'.free[|p.free|] == r;
    p'
  }

  /** Taking a pooled resulter and giving it straight back restores the pool's
      contents whichever idle resulter is handed out, and, with the
      most-recently-released order modelled here, the pool exactly. */
  lemma AllocReleaseRoundTrip<R>(p: ResulterPool<R>)
    requires |p.free| > 0
    ensures multiset(Release(Alloc(p).1, Alloc(p).0).free) == multiset(p.free)
    ensures Release(Alloc(p).1, Alloc(p).0).nextId == p.nextId
    ensures Release(Alloc(p).1, Alloc(p).0) == p
  {
    assert p.free[..|p.free| - 1] + [p.free[|p.free| - 1]] == p.free;
  }

  /** How the cancellation attempt races the in-flight response. */
  datatype CancelRace<R> =
    | DeliveredBeforeCancel(res: CrudResult<R>) // the callback already fired; Cancel() reports false
    | Preempted                                 // Cancel() wins; the callback never fires
    | DeliveredAfterCancel(res: CrudResult<R>)  // Cancel() reports false; the callback fires later

  /** What `ctx.Err()` can return once the context is done. */
  type ContextError = e: Error | e.Canceled? || e.DeadlineExceeded? witness Canceled

  /** The event orders the codec allows for one call. */
  datatype Schedule<R> =
    | DispatchFailed(err: Error)                          // execFn returns an error
    | ResultSelected(res: CrudResult<R>)                  // the select takes the callback's result
    | ContextSelected(ctxErr: ContextError, race: CancelRace<R>) // the select takes ctx.Done()

  /** What `pendingOp.Cancel()` returns under a race. */
  function CancelReports<R>(race: CancelRace<R>): bool
  {
    race.Preempted?
  }

  /** What happens to the resulter during one call, in order. */
  datatype CallEvent =
    | Allocated(id: nat)
    | Delivered(id: nat)                 // the callback sends into the channel
    | CancelAttempted(succeeded: bool)   // pendingOp.Cancel() and its answer
    | Received(id: nat)                  // the caller takes a result from the channel
    | Released(id: nat, buffered: nat)   // back to the pool, with what is still buffered

  /** How many events of each kind a trace holds. */
  datatype Tally = Tally(allocs: nat, delivers: nat, cancels: nat, receives: nat, releases: nat)

  function Bump(c: Tally, e: CallEvent): Tally
  {
    match e
    case Allocated(_) => c.(allocs := c.allocs + 1)
    case Delivered(_) => c.(delivers := c.delivers + 1)
    case CancelAttempted(_) => c.(cancels := c.cancels + 1)
    case Received(_) => c.(receives := c.receives + 1)
    case Released(_, _) => c.(releases := c.releases + 1)
  }

  function TallyOf(t: seq<CallEvent>): Tally
    decreases |t|
  {
    if |t| == 0 then Tally(0, 0, 0, 0, 0) else Bump(TallyOf(t[..|t| - 1]), t[|t| - 1])
  }

  /** A call in progress: its resulter and what has happened to it so far. */
  datatype Bridge<R> = Bridge(r: Resulter<R>, trace: seq<CallEvent>)

  /** Appends one event; only the count of that event's kind grows. */
  function Note<R>(b: Bridge<R>, r': Resulter<R>, e: CallEvent): (b': Bridge<R>)
    ensures b'.r == r' && b'.trace == b.trace + [e]
    ensures TallyOf(b'.trace) == Bump(TallyOf(b.trace), e)
  {
    var t := b.trace + [e];
    assert t[..|t| - 1] == b.trace;
    Bridge(r', t)
  }

  /** `allocSyncCrudResulter` as seen by the call: the trace opens with the allocation. */
  function Start<R>(r: Resulter<R>): (b: Bridge<R>)
    ensures b.r == r && b.trace == [Allocated(r.id)]
    ensures TallyOf(b.trace) == Tally(1, 0, 0, 0, 0)
  {
    Note(Bridge(r, []), r, Allocated(r.id))
  }

  /** The callback's channel send. It needs room in the channel, or the
      callback's goroutine would block. */
  function Deliver<R>(b: Bridge<R>, v: CrudResult<R>): (b': Bridge<R>)
    requires |b.r.buffer| < b.r.capacity
    ensures b'.r == b.r.(buffer := b.r.buffer + [v])
    ensures var c := TallyOf(b.trace); TallyOf(b'.trace) == c.(delivers := c.delivers + 1)
  {
    Note(b, b.r.(buffer := b.r.buffer + [v]), Delivered(b.r.id))
  }

  /** A receive from the channel. It needs a buffered result, or the caller
      would block. */
  function Receive<R>(b: Bridge<R>): (res: (CrudResult<R>, Bridge<R>))
    requires |b.r.buffer| > 0
    ensures res.0 == b.r.buffer[0] && res.1.r == b.r.(buffer := b.r.buffer[1..])
    ensures var c := TallyOf(b.trace); TallyOf(res.1.trace) == c.(receives := c.receives + 1)
  {
    (b.r.buffer[0], Note(b, b.r.(buffer := b.r.buffer[1..]), Received(b.r.id)))
  }

  /** `pendingOp.Cancel()`, recording its answer. */
  function AttemptCancel<R>(b: Bridge<R>, succeeded: bool): (b': Bridge<R>)
    ensures b'.r == b.r
    ensures var c := TallyOf(b.trace); TallyOf(b'.trace) == c.(cancels := c.cancels + 1)
  {
    Note(b, b.r, CancelAttempted(succeeded))
  }

  /** `releaseSyncCrudResulter` as seen by the call: the trace closes with the
      release and the number of results still buffered. */
  function Finish<R>(b: Bridge<R>): (t: seq<CallEvent>)
    ensures t == b.trace + [Released(b.r.id, |b.r.buffer|)]
    ensures var c := TallyOf(b.trace); TallyOf(t) == c.(releases := c.releases + 1)
  {
    Note(b, b.r, Released(b.r.id, |b.r.buffer|)).trace
  }

  datatype CallOutcome<R> = CallOutcome(
    resp: R,
    err: Option<Error>,
    pool: ResulterPool<R>,
    trace: seq<CallEvent>)

  /** The part of `kvClient_SimpleCall` between allocation and release: dispatch,
      then wait for the result or the context, whichever the schedule says wins,
      draining the channel when cancellation fails. Answers the response, the
      error and the resulter's final state. `zero` is the Go zero response. */
  function DispatchAndWait<R>(b: Bridge<R>, zero: R, sched: Schedule<R>): (res: (R, Option<Error>, Bridge<R>))
    requires Idle(b.r)
    // the resulter ends as it started: same identity, capacity one, nothing buffered
    ensures res.2.r == b.r
    ensures b.trace <= res.2.trace
    // the callback fires at most once and whatever it delivered was received
    ensures var c, c' := TallyOf(b.trace), TallyOf(res.2.trace);
            c'.allocs == c.allocs && c'.releases == c.releases &&
            c'.delivers <= c.delivers + 1 && c'.receives - c.receives == c'.delivers - c.delivers
    // a cancelled call drains one result exactly when Cancel() reports failure
    ensures var c, c' := TallyOf(b.trace), TallyOf(res.2.trace);
            sched.ContextSelected? ==> c'.receives - c.receives == (if CancelReports(sched.race) then 0 else 1)
    // what the caller gets back
    ensures sched.DispatchFailed? ==> res.0 == zero && res.1 == Some(Dispatch(sched.err))
    ensures sched.ResultSelected? ==> res.0 == sched.res.result && res.1 == sched.res.err
    ensures sched.ContextSelected? ==> res.0 == zero && res.1 == Some(sched.ctxErr)
  {
    match sched
    case DispatchFailed(e) =>
      (zero, Some(Dispatch(e)), b)
    case ResultSelected(v) =>
      var b1 := Deliver(b, v);
      var (got, b2) := Receive(b1);
      (got.result, got.err, b2)
    case ContextSelected(ctxErr, race) =>
      var b1 := if race.DeliveredBeforeCancel? then Deliver(b, race.res) else b;
      var cancelled := CancelReports(race);
      var b2 := AttemptCancel(b1, cancelled);
      // when Cancel() fails, drain the one result the callback has delivered or is about to deliver
      var b3 := if !cancelled && race.DeliveredAfterCancel? then Deliver(b2, race.res) else b2;
      var b4 := if !cancelled then Receive(b3).1 else b3;
      (zero, Some(ctxErr), b4)
  }

  /** `kvClient_SimpleCall`: allocate a resulter, dispatch and wait, release. The
      source releases on each of its three exits (dispatch error, result taken,
      context done); here the exits share one release after `DispatchAndWait`, so
      releasing exactly once holds by construction, and what the contract checks
      against the exits is that the channel is empty at the release. */
  method SimpleCall<R>(pool: ResulterPool<R>, zero: R, sched: Schedule<R>) returns (out: CallOutcome<R>)
    requires PoolWellFormed(pool)
    // one resulter, allocated first and released last, exactly once, with an empty channel
    ensures SingleUse(out.trace)
    // the callback fires at most once and whatever it delivered was received
    ensures TallyOf(out.trace).delivers <= 1
    ensures TallyOf(out.trace).receives == TallyOf(out.trace).delivers
    // a cancelled call drains one result exactly when Cancel() reports failure
    ensures sched.ContextSelected? ==>
              TallyOf(out.trace).receives == (if CancelReports(sched.race) then 0 else 1)
    // the pool stays reusable
    ensures PoolWellFormed(out.pool) && InPool(out.pool, out.trace[0].id)
    ensures |out.pool.free| == (if |pool.free| == 0 then 1 else |pool.free|)
    // what the caller gets back
    ensures sched.DispatchFailed? ==> out.resp == zero && out.err == Some(Dispatch(sched.err))
    ensures sched.ResultSelected? ==> out.resp == sched.res.result && out.err == sched.res.err
    ensures sched.ContextSelected? ==> out.resp == zero && out.err == Some(sched.ctxErr)
    ensures sched.ContextSelected? ==> out.err.value.Canceled? || out.err.value.DeadlineExceeded?
  {
    var (r, p1) := Alloc(pool);
    assert Idle(r) && PoolWellFormed(p1) && r.id < p1.nextId && !InPool(p1, r.id);
    var (resp, err, b) := DispatchAndWait(Start(r), zero, sched);
    // the resulter goes back as the call left it, channel contents included
    assert b.r == r;
    var pool' := Release(p1, b.r);
    assert PoolWellFormed(pool') && InPool(pool', r.id);
    var trace := Finish(b);
    assert trace[0] == Allocated(r.id);
    out := CallOutcome(resp, err, pool', trace);
  }

  /** A run of calls on one pool: each call's answer and its resulter trace. */
  datatype RunOutcome<R> = RunOutcome(
    results: seq<(R, Option<Error>)>,
    pool: ResulterPool<R>,
    traces: seq<seq<CallEvent>>)

  /** The answer a call gives under a schedule, whatever the pool held. */
  function Expected<R>(zero: R, sched: Schedule<R>): (R, Option<Error>)
  {
    match sched
    case DispatchFailed(e) => (zero, Some(Dispatch(e)))
    case ResultSelected(res) => (res.result, res.err)
    case ContextSelected(ctxErr, _) => (zero, Some(ctxErr))
  }

  /** Calls issued one after another on the same pool, each under its own
      schedule. However many were cancelled, no call ever sees a result meant for
      another: each answer is exactly what its own schedule delivers, every call
      uses its resulter once and returns it empty, and the pool stays well formed. */
  method RunCalls<R>(pool: ResulterPool<R>, zero: R, scheds: seq<Schedule<R>>) returns (out: RunOutcome<R>)
    requires PoolWellFormed(pool)
    ensures PoolWellFormed(out.pool)
    ensures |out.results| == |scheds| && |out.traces| == |scheds|
    ensures forall i :: 0 <= i < |scheds| ==> out.results[i] == Expected(zero, scheds[i])
    ensures forall i :: 0 <= i < |scheds| ==> SingleUse(out.traces[i])
  {
    out := RunOutcome([], pool, []);
    var n := 0;
    while n < |scheds|
      invariant n <= |scheds|
      invariant PoolWellFormed(out.pool)
      invariant |out.results| == n && |out.traces| == n
      invariant forall i :: 0 <= i < n ==> out.results[i] == Expected(zero, scheds[i])
      invariant forall i :: 0 <= i < n ==> SingleUse(out.traces[i])
    {
      var call := SimpleCall(out.pool, zero, scheds[n]);
      assert (call.resp, call.err) == Expected(zero, scheds[n]);
      out := RunOutcome(out.results + [(call.resp, call.err)], call.pool, out.traces + [call.trace]);
      n := n + 1;
    }
  }

  /** Negotiated HELLO features. */
  datatype HelloFeature = AltRequests | Collections | OtherFeature(code: nat)

  /** The encoders the codec offers. Bootstrap wraps a core encoder. */
  datatype Encoder =
    | OpsCore
    | OpsUtils(extFramesEnabled: bool)
    | OpsCrud(extFramesEnabled: bool, collectionsEnabled: bool)
    | OpBootstrap(inner: Encoder)

  /** The operations the KV client exposes. */
  datatype Operation =
    | Bootstrap | GetClusterConfig | SelectBucket | GetCollectionID
    | Get | Set | Delete | GetAndLock

  predicate IsCrud(op: Operation)
  {
    op.Get? || op.Set? || op.Delete? || op.GetAndLock?
  }

  /** The encoder each operation dispatches with, given the connection's
      negotiated features. */
  function EncoderFor(op: Operation, features: set<HelloFeature>): (enc: Encoder)
    ensures enc.OpsCrud? <==> IsCrud(op)
    ensures enc.OpsUtils? <==> op == GetCollectionID
    ensures enc.OpBootstrap? <==> op == Bootstrap
    ensures enc.OpBootstrap? ==> enc.inner == OpsCore
    ensures (enc.OpsCrud? || enc.OpsUtils?) ==> (enc.extFramesEnabled <==> AltRequests in features)
    ensures enc.OpsCrud? ==> (enc.collectionsEnabled <==> Collections in features)
  {
    match op
    case Bootstrap => OpBootstrap(OpsCore)
    case GetClusterConfig => OpsCore
    case SelectBucket => OpsCore
    case GetCollectionID => OpsUtils(AltRequests in features)
    case _ => OpsCrud(AltRequests in features, Collections in features)
  }

  /** Only the AltRequests and Collections features influence an encoder. */
  lemma EncoderIgnoresOtherFeatures(op: Operation, f1: set<HelloFeature>, f2: set<HelloFeature>)
    requires (AltRequests in f1 <==> AltRequests in f2) && (Collections in f1 <==> Collections in f2)
    ensures EncoderFor(op, f1) == EncoderFor(op, f2)
  {
  }

  /** Raw bytes; None is the Go nil slice. */
  type Bytes = Option<seq<bv8>>

  /** `selectBucketWrapper`: the codec's select-bucket callback carries only an
      error, which is forwarded with a nil payload. */
  function SelectBucketWrapper(delivered: CrudResult<()>): (res: CrudResult<Bytes>)
    ensures res.result.None? && res.err == delivered.err
  {
    CrudResult(None, delivered.err)
  }

  function WrapRace(race: CancelRace<()>): CancelRace<Bytes>
  {
    match race
    case DeliveredBeforeCancel(res) => DeliveredBeforeCancel(SelectBucketWrapper(res))
    case Preempted => Preempted
    case DeliveredAfterCancel(res) => DeliveredAfterCancel(SelectBucketWrapper(res))
  }

  /** A select-bucket schedule seen through the wrapper. */
  function WrapSchedule(sched: Schedule<()>): Schedule<Bytes>
  {
    match sched
    case DispatchFailed(e) => DispatchFailed(e)
    case ResultSelected(res) => ResultSelected(SelectBucketWrapper(res))
    case ContextSelected(ctxErr, race) => ContextSelected(ctxErr, WrapRace(race))
  }

  /** `SelectBucket`: a core call through the wrapper that keeps only the error. */
  method SelectBucketCall(pool: ResulterPool<Bytes>, sched: Schedule<()>) returns (err: Option<Error>, pool': ResulterPool<Bytes>)
    requires PoolWellFormed(pool)
    ensures PoolWellFormed(pool')
    ensures sched.DispatchFailed? ==> err == Some(Dispatch(sched.err))
    ensures sched.ResultSelected? ==> err == sched.res.err
    ensures sched.ContextSelected? ==> err == Some(sched.ctxErr)
  {
    var out := SimpleCall(pool, None, WrapSchedule(sched));
    err, pool' := out.err, out.pool;
  }
}

=== FILE: search.dfy ===
/** The front door of a search request (`HttpSearch.Search`): default the
    options, insist on an endpoint, build the body, then hand everything to the
    HTTP executor. The executor is not modelled; the model returns the request it
    would receive. */
module HttpSearch {
  import opened Wrappers
  import opened Errors
  import opened SearchBody

  const EmptyEndpointMessage: string := "endpoint cannot be empty"

  /** What `execute` receives: the query, the endpoint, the on-behalf-of user and
      the body (before JSON encoding). */
  datatype ExecuteRequest = ExecuteRequest(
    query: string,
    endpoint: string,
    onBehalfOf: string,
    body: map<string, Value>)

  /** `Search(ctx, indexName, query, opts)` up to the call of `execute`. A None
      `opts` is the Go nil pointer. */
  function Search(indexName: string, query: string, opts: Option<SearchOptions>): (r: Result<ExecuteRequest, Error>)
    ensures var o := if opts.Some? then opts.value else ZeroOptions;
            r.Success? <==> o.endpoint != "" && ToMap(o, indexName).Success?
    ensures var o := if opts.Some? then opts.value else ZeroOptions;
            o.endpoint == "" ==> r == Failure(InvalidArgument(EmptyEndpointMessage))
    ensures var o := if opts.Some? then opts.value else ZeroOptions;
            o.endpoint != "" && ToMap(o, indexName).Failure? ==> r == Failure(ToMap(o, indexName).error)
    ensures var o := if opts.Some? then opts.value else ZeroOptions;
            r.Success? ==> r.value == ExecuteRequest(query, o.endpoint, o.onBehalfOf, ToMap(o, indexName).value)
  {
    var o := if opts.Some? then opts.value else ZeroOptions;
    if o.endpoint == "" then
      Failure(InvalidArgument(EmptyEndpointMessage))
    else
      var body :- ToMap(o, indexName);
      Success(ExecuteRequest(query, o.endpoint, o.onBehalfOf, body))
  }

  /** A nil options pointer behaves exactly like zero-valued options. */
  lemma NilOptionsAreZeroOptions(indexName: string, query: string)
    ensures Search(indexName, query, None) == Search(indexName, query, Some(ZeroOptions))
  {
  }

  /** With nil options the call always fails, and always with the endpoint error. */
  lemma NilOptionsAlwaysRejected(indexName: string, query: string)
    ensures Search(indexName, query, None) == Failure(InvalidArgument(EmptyEndpointMessage))
  {
  }

  /** The endpoint check runs before body validation: an empty endpoint wins even
      over options `ToMap` would reject. */
  lemma EndpointCheckedFirst(indexName: string, query: string, o: SearchOptions)
    requires o.endpoint == ""
    requires ToMap(o, indexName).Failure?
    ensures Search(indexName, query, Some(o)) == Failure(InvalidArgument(EmptyEndpointMessage))
    ensures Search(indexName, query, Some(o)) != Failure(ToMap(o, indexName).error)
  {
    assert ToMap(o, indexName).error.message != EmptyEndpointMessage;
  }

  /** Every rejection is an InvalidArgumentError, so it unwraps to the sentinel. */
  lemma RejectionsAreInvalidArgument(indexName: string, query: string, opts: Option<SearchOptions>)
    requires Search(indexName, query, opts).Failure?
    ensures Search(indexName, query, opts).error.InvalidArgument?
    ensures Is(Search(indexName, query, opts).error, ErrInvalidArgument)
  {
  }
}

=== FILE: search_options.dfy ===
/** Search request options and the request-body builder (`SearchOptions.toMap`).
    The body is a JSON-like key/value map; keys are written in a fixed order, so a
    later write decides the value of a key written earlier. */
module SearchBody {
  import opened Wrappers
  import opened Errors

  type UInt32 = x: nat | x < 0x1_0000_0000

  /** Highlight styles. The Go type is a string, so any text is allowed. */
  const DefaultHighlightStyle: string := ""
  const HtmlHighlightStyle: string := "html"
  const AnsiHighlightStyle: string := "ansi"

  /** Scan consistency levels. The Go type is `uint`, so any other number can be
      passed and is rejected by `ToMap`. */
  const ScanConsistencyNotSet: nat := 0
  const ScanConsistencyNotBounded: nat := 1

  const ExclusiveConsistencyMessage: string := "ScanConsistency and ConsistentWith must be used exclusively"
  const UnexpectedConsistencyMessage: string := "unexpected consistency option"

  /** Mutation-token vectors: index name -> partition -> sequence numbers. */
  type ConsistencyVectors = map<string, map<string, seq<nat>>>

  /** The values the body map can hold. `Sort` and `Facet` entries and Raw extras
      are arbitrary JSON-able values in the source, so they are `Value`s here. */
  datatype Value =
    | Null
    | Bool(b: bool)
    | UInt(n: nat)
    | Str(s: string)
    | Strings(items: seq<string>)
    | List(elems: seq<Value>)
    | Object(fields: map<string, Value>)
    | Vectors(vectors: ConsistencyVectors)

  datatype HighlightOptions = HighlightOptions(style: string, fields: seq<string>)

  datatype SearchOptions = SearchOptions(
    scanConsistency: nat,
    limit: UInt32,
    skip: UInt32,
    explain: bool,
    highlight: Option<HighlightOptions>,
    fields: seq<string>,
    sort: seq<Value>,
    facets: Option<map<string, Value>>,
    consistentWith: Option<ConsistencyVectors>,
    raw: map<string, Value>,
    disableScoring: bool,
    collections: seq<string>,
    includeLocations: bool,
    endpoint: string,
    onBehalfOf: string)

  /** The Go zero value `SearchOptions{}`. */
  const ZeroOptions: SearchOptions :=
    SearchOptions(0, 0, 0, false, None, [], [], None, None, map[], false, [], false, "", "")

  /** The `"ctl"` object for a NotBounded scan. */
  const NotBoundedCtl: Value := Object(map["consistency" := Object(map["level" := Str("")])])

  /** The `"ctl"` object for an at_plus scan against the given vectors. */
  function AtPlusCtl(v: ConsistencyVectors): Value
  {
    Object(map["consistency" := Object(map["level" := Str("at_plus"), "vectors" := Vectors(v)])])
  }

  /** The consistency options `toMap` accepts: no level, or NotBounded without
      consistency vectors. */
  predicate ConsistencyValid(opts: SearchOptions)
  {
    opts.scanConsistency == ScanConsistencyNotSet ||
    (opts.scanConsistency == ScanConsistencyNotBounded && opts.consistentWith.None?)
  }

  /** The keys written before Raw extras: paging, explain, fields, sort,
      highlight and facets, in source order. */
  function DisplayWrites(opts: SearchOptions): (data: map<string, Value>)
    ensures forall k :: k !in DisplayKeys ==> k !in data
  {
    var data: map<string, Value> := map[];
    var data := if opts.limit > 0 then data["size" := UInt(opts.limit)] else data;
    var data := if opts.skip > 0 then data["from" := UInt(opts.skip)] else data;
    var data := if opts.explain then data["explain" := Bool(true)] else data;
    var data := if |opts.fields| > 0 then data["fields" := Strings(opts.fields)] else data;
    var data := if |opts.sort| > 0 then data["sort" := List(opts.sort)] else data;
    var data :=
      if opts.highlight.Some? then
        data["highlight" := Object(map["style" := Str(opts.highlight.value.style),
                                       "fields" := Strings(opts.highlight.value.fields)])]
      else data;
    var data := if opts.facets.Some? then data["facets" := Object(opts.facets.value)] else data;
    data
  }

  const DisplayKeys: set<string> := {"size", "from", "explain", "fields", "sort", "highlight", "facets"}

  /** Continues the writes after validation: the consistency control object and
      the scoring switch. */
  function ControlWrites(opts: SearchOptions, data: map<string, Value>): (data': map<string, Value>)
    requires ConsistencyValid(opts)
    requires "ctl" !in data && "score" !in data
    ensures forall k :: k != "ctl" && k != "score" ==> Lookup(data', k) == Lookup(data, k)
    ensures Lookup(data', "ctl") == BuiltIn(opts, "ctl")
    ensures Lookup(data', "score") == BuiltIn(opts, "score")
  {
    var ctl: Option<map<string, Value>> :=
      if opts.scanConsistency != ScanConsistencyNotSet then Some(map["consistency" := Object(map["level" := Str("")])])
      else None;
    // Validation rules out a level together with vectors, so the source's
    // "create ctl if still nil" always creates a fresh object here.
    var ctl :=
      if opts.consistentWith.Some? then
        Some(map["consistency" := Object(map["level" := Str("at_plus"), "vectors" := Vectors(opts.consistentWith.value)])])
      else ctl;
    var data := if ctl.Some? then data["ctl" := Object(ctl.value)] else data;
    var data := if opts.disableScoring then data["score" := Str("none")] else data;
    data
  }

  /** Every key the display writes produce carries the built-in value. */
  lemma DisplayWritesKeywise(opts: SearchOptions, k: string)
    requires k != "ctl" && k != "score"
    ensures Lookup(DisplayWrites(opts), k) == BuiltIn(opts, k)
  {
    if k !in DisplayKeys {
      assert k != "size" && k != "from" && k != "explain" && k != "fields";
      assert k != "sort" && k != "highlight" && k != "facets";
    }
  }

  /** All writes before Raw extras, keywise equal to the built-in table. */
  function BuiltInWrites(opts: SearchOptions): (data: map<string, Value>)
    requires ConsistencyValid(opts)
    ensures forall k :: Lookup(data, k) == BuiltIn(opts, k)
  {
    var data := ControlWrites(opts, DisplayWrites(opts));
    forall k ensures Lookup(data, k) == BuiltIn(opts, k) {
      if k != "ctl" && k != "score" {
        DisplayWritesKeywise(opts, k);
      }
    }
    data
  }

  /** `toMap(indexName)`: the request body, or the InvalidArgumentError that rejects
      the options. `indexName` is accepted but not used. The validation sits after
      the first seven writes in the source; those writes are discarded on error, so
      the order does not show in the result. */
  function ToMap(opts: SearchOptions, indexName: string): (r: Result<map<string, Value>, Error>)
    ensures r.Failure? <==>
              opts.scanConsistency != ScanConsistencyNotSet &&
              (opts.consistentWith.Some? || opts.scanConsistency != ScanConsistencyNotBounded)
    ensures opts.scanConsistency != ScanConsistencyNotSet && opts.consistentWith.Some? ==>
              r == Failure(InvalidArgument(ExclusiveConsistencyMessage))
    ensures opts.scanConsistency !in {ScanConsistencyNotSet, ScanConsistencyNotBounded} && opts.consistentWith.None? ==>
              r == Failure(InvalidArgument(UnexpectedConsistencyMessage))
    ensures r.Success? ==> forall k :: Lookup(r.value, k) == Expected(opts, k)
  {
    if opts.scanConsistency != ScanConsistencyNotSet && opts.consistentWith.Some? then
      Failure(InvalidArgument(ExclusiveConsistencyMessage))
    else if opts.scanConsistency != ScanConsistencyNotSet && opts.scanConsistency != ScanConsistencyNotBounded then
      Failure(InvalidArgument(UnexpectedConsistencyMessage))
    else
      var data := BuiltInWrites(opts) + opts.raw;
      var data := if |opts.collections| > 0 then data["collections" := Strings(opts.collections)] else data;
      var data := if opts.includeLocations then data["includeLocations" := Bool(true)] else data;
      Success(data)
  }

  function Lookup(m: map<string, Value>, k: string): Option<Value>
  {
    if k in m then Some(m[k]) else None
  }

  /** The value a key receives before Raw extras are applied, or None if no
      built-in write touches it. */
  function BuiltIn(opts: SearchOptions, k: string): Option<Value>
  {
    if k == "size" then (if opts.limit > 0 then Some(UInt(opts.limit)) else None)
    else if k == "from" then (if opts.skip > 0 then Some(UInt(opts.skip)) else None)
    else if k == "explain" then (if opts.explain then Some(Bool(true)) else None)
    else if k == "fields" then (if |opts.fields| > 0 then Some(Strings(opts.fields)) else None)
    else if k == "sort" then (if |opts.sort| > 0 then Some(List(opts.sort)) else None)
    else if k == "highlight" then
      (match opts.highlight
       case Some(h) => Some(Object(map["style" := Str(h.style), "fields" := Strings(h.fields)]))
       case None => None)
    else if k == "facets" then
      (match opts.facets
       case Some(f) => Some(Object(f))
       case None => None)
    else if k == "ctl" then
      (if opts.consistentWith.Some? then Some(AtPlusCtl(opts.consistentWith.value))
       else if opts.scanConsistency == ScanConsistencyNotBounded then Some(NotBoundedCtl)
       else None)
    else if k == "score" then (if opts.disableScoring then Some(Str("none")) else None)
    else None
  }

  /** Reference definition of the body, key by key, from highest precedence down:
      includeLocations, then collections, then Raw, then the built-in writes. */
  function Expected(opts: SearchOptions, k: string): Option<Value>
  {
    if k == "includeLocations" && opts.includeLocations then Some(Bool(true))
    else if k == "collections" && |opts.collections| > 0 then Some(Strings(opts.collections))
    else if k in opts.raw then Some(opts.raw[k])
    else BuiltIn(opts, k)
  }

  /** `"size"` carries the limit and `"from"` the skip count, each present exactly
      when the number is positive, unless a Raw extra of that name replaces it. */
  lemma PagingKeys(opts: SearchOptions, indexName: string)
    requires ToMap(opts, indexName).Success?
    ensures var body := ToMap(opts, indexName).value;
            "size" !in opts.raw ==>
              ("size" in body <==> opts.limit > 0) && (opts.limit > 0 ==> body["size"] == UInt(opts.limit))
    ensures var body := ToMap(opts, indexName).value;
            "from" !in opts.raw ==>
              ("from" in body <==> opts.skip > 0) && (opts.skip > 0 ==> body["from"] == UInt(opts.skip))
  {
    var body := ToMap(opts, indexName).value;
    assert Lookup(body, "size") == Expected(opts, "size");
    assert Lookup(body, "from") == Expected(opts, "from");
  }

  /** `"ctl"` is present exactly when a consistency is requested: level "" for
      NotBounded, level "at_plus" with the vectors for ConsistentWith. */
  lemma ConsistencyControl(opts: SearchOptions, indexName: string)
    requires ToMap(opts, indexName).Success?
    requires "ctl" !in opts.raw
    ensures var body := ToMap(opts, indexName).value;
            "ctl" in body <==> opts.scanConsistency == ScanConsistencyNotBounded || opts.consistentWith.Some?
    ensures var body := ToMap(opts, indexName).value;
            opts.scanConsistency == ScanConsistencyNotBounded ==> body["ctl"] == NotBoundedCtl
    ensures var body := ToMap(opts, indexName).value;
            opts.consistentWith.Some? ==> body["ctl"] == AtPlusCtl(opts.consistentWith.value)
  {
    var body := ToMap(opts, indexName).value;
    assert Lookup(body, "ctl") == Expected(opts, "ctl");
  }

  /** `"score": "none"` exactly when scoring is disabled and `"includeLocations":
      true` exactly when locations are requested, barring a Raw extra of that name;
      a requested includeLocations is never overridden. */
  lemma ScoringAndLocations(opts: SearchOptions, indexName: string)
    requires ToMap(opts, indexName).Success?
    ensures var body := ToMap(opts, indexName).value;
            "score" !in opts.raw ==>
              ("score" in body <==> opts.disableScoring) && (opts.disableScoring ==> body["score"] == Str("none"))
    ensures var body := ToMap(opts, indexName).value;
            "includeLocations" !in opts.raw ==> ("includeLocations" in body <==> opts.includeLocations)
    ensures var body := ToMap(opts, indexName).value;
            opts.includeLocations ==> "includeLocations" in body && body["includeLocations"] == Bool(true)
  {
    var body := ToMap(opts, indexName).value;
    assert Lookup(body, "score") == Expected(opts, "score");
    assert Lookup(body, "includeLocations") == Expected(opts, "includeLocations");
  }

  /** Raw extras replace every key written before them (size, from, ctl, score and
      the rest), and are themselves replaced by a non-empty collections list and by
      a requested includeLocations. */
  lemma RawPrecedence(opts: SearchOptions, indexName: string, k: string)
    requires ToMap(opts, indexName).Success?
    requires k in opts.raw
    ensures var body := ToMap(opts, indexName).value;
            k == "collections" && |opts.collections| > 0 ==> body[k] == Strings(opts.collections)
    ensures var body := ToMap(opts, indexName).value;
            k == "includeLocations" && opts.includeLocations ==> body[k] == Bool(true)
    ensures var body := ToMap(opts, indexName).value;
            !(k == "collections" && |opts.collections| > 0) && !(k == "includeLocations" && opts.includeLocations) ==>
              body[k] == opts.raw[k]
  {
    var body := ToMap(opts, indexName).value;
    assert Lookup(body, k) == Expected(opts, k);
  }

  /** Highlight and facets are written whenever they are present, even when empty;
      facets are copied key for key. Fields, sort and collections are written only
      when non-empty. */
  lemma PresenceVersusEmptiness(opts: SearchOptions, indexName: string)
    requires ToMap(opts, indexName).Success?
    requires opts.raw.Keys !! {"highlight", "facets", "fields", "sort", "collections"}
    ensures "highlight" in ToMap(opts, indexName).value <==> opts.highlight.Some?
    ensures opts.highlight.Some? ==>
              ToMap(opts, indexName).value["highlight"] ==
              Object(map["style" := Str(opts.highlight.value.style), "fields" := Strings(opts.highlight.value.fields)])
    ensures "facets" in ToMap(opts, indexName).value <==> opts.facets.Some?
    ensures opts.facets.Some? ==>
              ToMap(opts, indexName).value["facets"].Object? &&
              ToMap(opts, indexName).value["facets"].fields == opts.facets.value
    ensures "fields" in ToMap(opts, indexName).value <==> |opts.fields| > 0
    ensures "sort" in ToMap(opts, indexName).value <==> |opts.sort| > 0
    ensures "collections" in ToMap(opts, indexName).value <==> |opts.collections| > 0
  {
    var body := ToMap(opts, indexName).value;
    assert Lookup(body, "highlight") == Expected(opts, "highlight");
    assert Lookup(body, "facets") == Expected(opts, "facets");
    assert Lookup(body, "fields") == Expected(opts, "fields");
    assert Lookup(body, "sort") == Expected(opts, "sort");
    assert Lookup(body, "collections") == Expected(opts, "collections");
  }

  /** The exclusivity check runs first, so it wins even when the scan
      consistency is also an unknown value. */
  lemma ExclusivityWinsOverUnknownLevel(opts: SearchOptions, indexName: string)
    requires opts.scanConsistency > ScanConsistencyNotBounded
    requires opts.consistentWith.Some?
    ensures ToMap(opts, indexName) == Failure(InvalidArgument(ExclusiveConsistencyMessage))
  {
  }

  /** Zero-valued options give an empty body and no error. */
  lemma ZeroOptionsGiveEmptyBody(indexName: string)
    ensures ToMap(ZeroOptions, indexName) == Success(map[])
  {
  }

  /** The index name never affects the body or the error. */
  lemma IndexNameIrrelevant(opts: SearchOptions, a: string, b: string)
    ensures ToMap(opts, a) == ToMap(opts, b)
  {
  }
}

=== FILE: wrappers.dfy ===
/** Option and Result values used for Go's nil-able fields and `(value, error)` returns. */
module Wrappers {

  /** A value that may be absent: Go's nil pointer, nil map or nil interface. */
  datatype Option<+T> = None | Some(value: T)

  /** A Go `(value, error)` pair where exactly one side is meaningful. */
  datatype Result<+R, +E> = Success(value: R) | Failure(error: E) {

    predicate IsFailure() {
      Failure?
    }

    function PropagateFailure<U>(): Result<U, E>
      requires Failure?
    {
      Failure(error)
    }

    function Extract(): R
      requires Success?
    {
      value
    }
  }
}
